=== FILE: README.md ===
# Movie-review sentiment scorer and hurricane category lookups, in Dafny

This project models the computational core of a small teaching repository of
two Python programs.

- `movie_sentiment.py` estimates the sentiment of a movie review from a
  corpus of labelled reviews. A corpus line is `<label> <text>`, with labels
  on the 0..4 scale.
  - The **word scorer** (`calculate_average_review`) returns the mean label of
    the corpus lines that contain a word, or 2.0 when no line does. A line
    contains a word when the lower-cased word equals one of the fields after
    the first, after the lower-cased line is split on single spaces.
  - The **text estimator** (`calculate_estimated_score`) deletes every `,`
    `.` `!` `-` from the review and splits the rest on whitespace. It then
    averages the word scores of the tokens, one term per token occurrence.
  - The **description** chain in `get_review_and_estimate` maps the estimate
    to one of five words using strict `<` tests against 0.5, 1.5, 2.5 and 3.5.
- `hurricane_tracker.py` draws a hurricane's path. Its pure lookups map a
  wind speed to a category 0..5, and a category to a point colour and a pen
  width.

Modules, one per component:

| file | module | models |
|---|---|---|
| `wrappers.dfy` | `Wrappers` | `Option` for Python's `None` and `Result` for an escaping exception |
| `text.dfy` | `Text` | the string built-ins used: `str.lower`, `str.split(" ")`, `str.split()` |
| `word_scorer.dfy` | `WordScorer` | corpus reviews and `calculate_average_review` |
| `estimator.dfy` | `Estimator` | punctuation deletion, tokenisation, and `calculate_estimated_score` |
| `description.dfy` | `Description` | the description chain, and what `get_review_and_estimate` shows |
| `hurricane.dfy` | `Hurricane` | `calculate_category`, `get_point_color`, `get_line_size` |
| `scenarios.dfy` | `Scenarios` | small corpora that show how whole-field matching and tokenisation work, stated for arbitrary words |

Modelling decisions:

- **Corpus.** The corpus is an in-memory `seq<Review>`. A `Review(score, text)`
  holds the integer value of the line's label field and the text after the
  first space. The text is kept verbatim. So every line read from a file,
  except possibly the last, still ends in `"\n"`, exactly as in the source's
  `for review in review_file` loop. `RawLineFields` proves that the raw line, `LabelField(score) + " " + text`,
  splits into the label field followed by exactly the text's fields.
  `NewlineHidesLastField` and `TrailingNewlineLosesLastWord` prove the
  consequence: the last field of a newline-terminated line never matches.
  So neither does its last word, unless a space comes before the newline;
  `SpaceBeforeNewlineKeepsLastWord` shows that case.
- **Averages.** Averages are exact `real` quotients of integer sums.
- **Methods and reference functions.** The two scoring loops are methods
  (`CalculateAverageReview`, `CalculateEstimatedScore`). Each is proved equal
  to a functional reference definition (`AverageReview`, `Estimate`). The
  properties are lemmas about the reference definitions.
- **Review without tokens.** When the review has no token, the code
  divides by zero (movie_sentiment.py:68) and raises ZeroDivisionError. The
  model returns `None` there instead. A review with no words is a case of
  "none of the words were found", for which the docstring at line 54
  promises `None`, and the caller tests `estimated is None` at line 88. The
  raising behaviour is kept as `EstimateAsWritten` (see Findings).
- **Review whose tokens all miss the corpus.** The docstring's `None`
  promise covers this case too, but the code returns the mean of the 2.0
  fallbacks, which is 2.0 (lines 39-40 and 64-68). The model follows the
  code here, and `AllUnseenEstimatesFallback` states the result. See
  "## Left out".
- **Tokenisation choices.** The code, and so the model, tokenises the
  review and the corpus differently:
  - in the review, the four characters `, . ! -` are deleted wherever they
    occur, inside words too, and no other character is deleted; the rest is
    split on runs of whitespace;
  - corpus lines are lower-cased and split on single spaces, with no
    punctuation deleted.

## Model

| member | source | states |
|---|---|---|
| `WordScorer.CalculateAverageReview` | movie_sentiment.py:25-42 | The scan keeps a running count and label total of the lines containing the lower-cased word. Its result equals the reference average: the mean label of the containing reviews, or 2.0 when there are none. |
| `WordScorer.UnseenWordScoresFallback` | movie_sentiment.py:25-40 | If no review has the lower-cased word among its text fields, the score is exactly 2.0. |
| `WordScorer.SeenWordScoresMean` | movie_sentiment.py:31-42 | If at least one review contains the word, at least one label is counted. The score is then the sum of the counted labels divided by their number. |
| `WordScorer.MatchingLabelsComplete` | movie_sentiment.py:31-33 | The review at any position contributes its own label exactly once, in its place between the contributions of the reviews before and after it, when it contains the word. It contributes nothing otherwise. |
| `WordScorer.MatchingLabelsSound` | movie_sentiment.py:31-33 | Every counted label is the label of a review that contains the word. |
| `WordScorer.MatchingLabelsEmpty` | movie_sentiment.py:31-33 | Nothing is counted exactly when no review contains the word. |
| `WordScorer.MatchingLabelsAppend` | movie_sentiment.py:27-33 | Each line adds to the sum and count on its own, independently of the other lines. |
| `WordScorer.MatchingLabelsSnoc` | movie_sentiment.py:31-33 | One more line adds its label once when it contains the word, however often the word occurs in it, and adds nothing otherwise. |
| `WordScorer.SeenWordScoreBetweenLabels` | movie_sentiment.py:39-42 | A word that some review contains scores between the lowest and the highest label of the reviews containing it. |
| `WordScorer.ScoreWithinLabelRange` | movie_sentiment.py:39-42 | If all labels and the 2.0 fallback lie in lo..hi, every word score lies in lo..hi. |
| `WordScorer.ScoreIgnoresCase` | movie_sentiment.py:28-31 | Words with the same lower case score the same, and every word scores the same as its lower case. |
| `WordScorer.CorpusOrderIrrelevant` | movie_sentiment.py:27-33 | Two corpora holding the same lines the same number of times, in any order, give every word the same score. |
| `WordScorer.ReorderKeepsTotals` | movie_sentiment.py:27-33 | Reordering the lines keeps both the number and the total of the matching labels. |
| `WordScorer.RawLineFields` | movie_sentiment.py:29-32 | The lower-cased raw line splits into the label field, then exactly the text's fields. So the label field is never compared with the word. |
| `WordScorer.NewlineHidesLastField` | movie_sentiment.py:27-31 | If a line ends in a newline, its last field never equals a word that contains no newline. |
| `Text.Split` | movie_sentiment.py:30 | There is always at least one field, the empty string giving `[""]`. What the fields are is stated by `Text.JoinSplit`, `Text.SplitJoin` and `Text.SplitFieldsExcludeSep`. |
| `Text.JoinSplit` | movie_sentiment.py:30 | Splitting on single spaces loses nothing: joining the fields with spaces rebuilds the line. |
| `Text.SplitJoin` | movie_sentiment.py:30 | Fields without spaces, joined with spaces and split again, come back unchanged. |
| `Text.SplitFieldsExcludeSep` | movie_sentiment.py:30 | No field contains a space. |
| `Text.LowerAt` | movie_sentiment.py:29-31 | Lower-casing keeps the length and maps each character on its own, in place. |
| `Text.LowerIdempotent` | movie_sentiment.py:29-31 | Lower-casing a lower-cased string changes nothing. |
| `Text.Words` | movie_sentiment.py:63 | Every token of the whitespace split is non-empty and free of whitespace. Where the tokens are cut is stated by `Text.WordsSplitAtSpace`. |
| `Text.WordsSplitAtSpace` | movie_sentiment.py:63 | The split cuts at every whitespace character. The tokens of `a`, a whitespace character, then `b` are the tokens of `a` followed by those of `b`. Runs of whitespace and leading or trailing whitespace therefore produce no empty tokens. Together with `WordsOfWord`, this fixes the tokens of every input. |
| `Text.WordsCoverNonSpace` | movie_sentiment.py:63 | Concatenated, the tokens are exactly the input's non-whitespace characters in order. |
| `Text.WordsEmptyIffBlank` | movie_sentiment.py:63 | There is no token exactly when the input is all whitespace. |
| `Text.WordsJoinWords` | movie_sentiment.py:63 | Tokens joined with single spaces split back into the same tokens. |
| `Estimator.StripPunctuation` | movie_sentiment.py:59-62 | No `,` `.` `!` or `-` remains in the cleaned text. |
| `Estimator.StripCharacter` | movie_sentiment.py:59-62 | A punctuation character vanishes wherever it stands. Any other character is kept in place. |
| `Estimator.Tokenize` | movie_sentiment.py:59-63 | Every token is a non-empty, whitespace-free word. Its cut points are stated by `Estimator.TokenizeSplitsAtSpace`. |
| `Estimator.TokenizeSplitsAtSpace` | movie_sentiment.py:59-63 | Whitespace is never deleted, so a review is tokenised separately on either side of each whitespace character. For example, deleting the `-` in "good - bad" leaves two tokens. |
| `Estimator.TokenizeIgnoresPunctuation` | movie_sentiment.py:59-63 | Inserting a punctuation character anywhere, at a word's edge or inside it, does not change the tokens. |
| `Estimator.CalculateEstimatedScore` | movie_sentiment.py:57-68 | The two loops compute the reference estimate: the mean word score over token occurrences. The result is `None` exactly when the review holds only whitespace and punctuation. |
| `Estimator.NoEstimateIffBlank` | movie_sentiment.py:59-68 | There is no estimate exactly when every character is whitespace or one of the four punctuation characters. |
| `Estimator.BlankReviewDividesByZero` | movie_sentiment.py:68 | As written, those reviews raise a division by zero. The corrected estimate is `None` for them. |
| `Estimator.AsWrittenAgreesOnScoredReviews` | movie_sentiment.py:64-68 | A review with a scorable character gets the same number from the as-written and the corrected estimate. |
| `Estimator.WordScoresAt` | movie_sentiment.py:64-66 | The k-th term of the average is the word score of the k-th token occurrence. |
| `Estimator.EstimateWithinLabelRange` | movie_sentiment.py:64-68 | If all labels and the fallback lie in lo..hi, so does every estimate. |
| `Estimator.AllUnseenEstimatesFallback` | movie_sentiment.py:39-40 | A review with tokens, none of which any corpus review contains, is estimated at 2.0 by both the as-written and the corrected version, not `None`. |
| `Estimator.RepeatedWordScoresAsWord` | movie_sentiment.py:64-68 | A word repeated k >= 1 times scores the same as the word alone. |
| `Description.Describe` | movie_sentiment.py:97-106 | The five descriptions are the half-open ranges below 0.5, [0.5,1.5), [1.5,2.5), [2.5,3.5) and from 3.5 up. A boundary value belongs to the upper bucket. |
| `Description.DescribeIsNearestLabel` | movie_sentiment.py:97-106 | The description names the label nearest the estimate, ties going up, and clamps scores outside 0..4 to the ends. |
| `Description.DescribeMonotone` | movie_sentiment.py:97-106 | A higher estimate never gets a more negative description. |
| `Description.TextsDistinct` | movie_sentiment.py:97-106 | The five printed wordings are pairwise different. |
| `Description.ReviewAndEstimate` | movie_sentiment.py:85-106 | Built on the corrected estimate. The "Could not estimate" branch is taken exactly when the review holds only whitespace and the four punctuation characters, which is exactly when there is no estimate. Otherwise the estimate is shown with its description. |
| `Description.ShownDescriptionNearest` | movie_sentiment.py:85-106 | With 0..4 labels, a shown estimate lies in 0..4 and within half a unit of its description's label. |
| `Hurricane.CalculateCategory` | hurricane_tracker.py:61-72 | Every integer speed gets a category in 0..5. |
| `Hurricane.CategoryCountsThresholds` | hurricane_tracker.py:61-72 | The category is the number of thresholds 74, 96, 111, 130 and 157 that the speed reaches. |
| `Hurricane.CategoryBands` | hurricane_tracker.py:61-72 | The bands are 5 for speeds of 157 and up, 4 for 130..156, 3 for 111..129, 2 for 96..110, 1 for 74..95 and 0 below 74. |
| `Hurricane.CategoryBoundaryExamples` | hurricane_tracker.py:61-72 | Speeds 73, 74, 156 and 157 give categories 0, 1, 4 and 5. |
| `Hurricane.CategoryMonotone` | hurricane_tracker.py:61-72 | A higher wind speed never gives a lower category. |
| `Hurricane.GetPointColor` | hurricane_tracker.py:85-96 | There is a colour exactly for categories 0..5, and the implicit `None` for anything else. |
| `Hurricane.PointColorTable` | hurricane_tracker.py:85-96 | Categories 0 to 5 map to white, blue, green, yellow, orange and red. |
| `Hurricane.PointColorIdentifiesCategory` | hurricane_tracker.py:85-96 | The colour of a category leads back to that category. |
| `Hurricane.PointColorsDistinct` | hurricane_tracker.py:85-96 | Two categories with the same colour are the same category. |
| `Hurricane.LineSizeStepsWithCategory` | hurricane_tracker.py:109 | Pen sizes differ exactly as the categories differ, so they grow strictly with the category. |
| `Hurricane.StyleOfEverySpeed` | hurricane_tracker.py:155-157 | Every wind speed gets a colour, never `None`. Its pen size is 1..6 and does not shrink as the wind grows. |
| `Scenarios.SharedWordScoresMean` | movie_sentiment.py:27-42 | Take reviews "a w" and "b w" labelled x and y. Then w scores (x+y)/2 and a scores x. |
| `Scenarios.RepeatedWordCountsOncePerReview` | movie_sentiment.py:31-33 | Take a review "w w" labelled x and a review "w" labelled y. Then w scores (x+y)/2, not (2x+y)/3. |
| `Scenarios.PrefixOfFieldDoesNotMatch` | movie_sentiment.py:30-31 | A word that is a proper prefix of a field does not match it and falls back to 2.0. |
| `Scenarios.TrailingNewlineLosesLastWord` | movie_sentiment.py:27-31 | In "a w" labelled x, w scores x. In the same line read with its newline, w falls back to 2.0. |
| `Scenarios.SpaceBeforeNewlineKeepsLastWord` | movie_sentiment.py:27-33 | In "a w \n" labelled x, the newline is a field of its own, so w still scores x. |
| `Scenarios.PunctuationInTokens` | movie_sentiment.py:59-63 | A word followed by `!` tokenises as the word alone. Two words joined by `-` become one token, their concatenation. |

## Left out

- File handling in `calculate_average_review` is not modelled: opening, iterating and closing the file (movie_sentiment.py:23, 27, 36). The corpus is an in-memory sequence of reviews instead.
- Parsing the label with `int(...)` (movie_sentiment.py:32) is not modelled. Labels arrive as integers, so the crash on a non-numeric label of a matching line cannot be expressed. In the source, non-matching lines never have their label parsed.
- A corpus line with no space at all has no fields after the label, so it never matches. Such a line cannot be written as a `Review`. Leaving it out changes no score.
- `Text.Lower`: lower-cases ASCII letters only, because Python's full Unicode case mapping is out of scope. It has no contract of its own. `LowerAt`, `LowerLength`, `LowerIdempotent`, `LowerFixed` and `LowerKeeps` state what it does.
- `Text.IsSpace`: covers the whitespace code points that `str.split()` separates on. Other Unicode properties are not modelled.
- Floating-point rounding is not modelled. Sums and quotients are exact reals, so results can differ from CPython's doubles in the last bits.
- `get_review_and_estimate` is not modelled as I/O. Its `input` prompts and `print` output are left out; only what it shows is modelled, as `ReviewAndEstimate`.
- `initialize_screen` and `animate_hurricane` are left out, because they are turtle/tkinter drawing and file I/O. That includes the CSV parsing with `float(...)` and `int(float(...))`. Only the per-point composition of the three lookups is stated, as `StyleOfEverySpeed`.
- `AllUnseenEstimatesFallback`: the docstring of `calculate_estimated_score` (movie_sentiment.py:54) promises `None` when none of the review's words occurs in the corpus. The code returns 2.0 there (lines 39-40 and 64-68), and 2.0 is a meaningful neutral score. So the model keeps the code's result and does not promise `None` for this case. `None` is returned only for a review with no tokens.
- `WordScorer.Mentions`: the containment test at movie_sentiment.py:31 has no contract of its own. `RawLineFields` states that it compares the word with exactly the fields after the label, and `MatchingLabelsEmpty` and `MatchingLabelsComplete` state how it decides what is counted.
- `Estimator.EstimateAsWritten`: `calculate_estimated_score` as written (movie_sentiment.py:57-68) has no contract of its own. `BlankReviewDividesByZero` states when it raises ZeroDivisionError, and `AsWrittenAgreesOnScoredReviews` and `AllUnseenEstimatesFallback` state what it returns otherwise.
- `GetLineSize` has no contract of its own. The lemmas `LineSizeStepsWithCategory` and `StyleOfEverySpeed` state what its result means.

## Findings

| source | as written | input that shows it | evidently intended | confidence | as-written member | corrected member |
|---|---|---|---|---|---|---|
| movie_sentiment.py:68 | `total_score / num_words` runs even when the review has no token, and raises ZeroDivisionError | the review `""`, or `"!.,-"` | return `None`: a review with no words is one where none of the words were found, for which the docstring at line 54 promises `None`, and the caller tests `estimated is None` at line 88 | high; not executed | `Estimator.BlankReviewDividesByZero` | `Estimator.CalculateEstimatedScore` |

=== FILE: description.dfy ===
/** The wording the sentiment program attaches to an estimate, and the
    prompt-free core of `get_review_and_estimate` (movie_sentiment.py). */
module Description {
  import opened Wrappers
  import opened WordScorer
  import opened Estimator

  /** The five descriptions, from the most negative to the most positive. */
  datatype Sentiment = Negative | SomewhatNegative | Neutral | SomewhatPositive | Positive
  {
    /** The wording printed after the estimate. */
    function Wording(): string
    {
      match this
      case Negative => "negative"
      case SomewhatNegative => "somewhat negative"
      case Neutral => "neutral"
      case SomewhatPositive => "somewhat positive"
      case Positive => "positive"
    }

    /** The position on the 0..4 label scale the description stands for. */
    function Rank(): int
    {
      match this
      case Negative => 0
      case SomewhatNegative => 1
      case Neutral => 2
      case SomewhatPositive => 3
      case Positive => 4
    }
  }

  /** The description of an estimate: half-open buckets of width one around
      the labels 1, 2 and 3, open-ended below 0.5 and from 3.5 on; a score on
      a boundary belongs to the bucket above it. */
  function Describe(estimated: real): (d: Sentiment)
    ensures d == Negative <==> estimated < 0.5
    ensures d == SomewhatNegative <==> 0.5 <= estimated < 1.5
    ensures d == Neutral <==> 1.5 <= estimated < 2.5
    ensures d == SomewhatPositive <==> 2.5 <= estimated < 3.5
    ensures d == Positive <==> 3.5 <= estimated
  {
    if estimated < 0.5 then Negative
    else if estimated < 1.5 then SomewhatNegative
    else if estimated < 2.5 then Neutral
    else if estimated < 3.5 then SomewhatPositive
    else Positive
  }

  /** The nearest label to a score on the 0..4 scale, halves rounded up. */
  function NearestLabel(x: real): int
  {
    var n := (x + 0.5).Floor;
    if n < 0 then 0 else if n > 4 then 4 else n
  }

  /** The description names the label nearest to the estimate, ties going
      to the higher label, with scores outside 0..4 clamped to the ends. */
  lemma DescribeIsNearestLabel(estimated: real)
    ensures Describe(estimated).Rank() == NearestLabel(estimated)
  {
    var n := (estimated + 0.5).Floor;
    assert n as real <= estimated + 0.5 < n as real + 1.0;
  }

  /** A higher estimate never gets a more negative description. */
  lemma DescribeMonotone(s: real, t: real)
    requires s <= t
    ensures Describe(s).Rank() <= Describe(t).Rank()
  {
  }

  /** The five wordings are pairwise different. */
  lemma TextsDistinct(a: Sentiment, b: Sentiment)
    requires a != b
    ensures a.Wording() != b.Wording()
  {
  }

  /** What `get_review_and_estimate` shows for a review, without the
      prompting and printing, built on the corrected estimate: `None` when
      no estimate can be made (the "Could not estimate" message), otherwise
      the estimate and its description. With the estimate as written that
      message never appears, since a review without tokens raises a
      division by zero before the caller's `None` test is reached. */
  function ReviewAndEstimate(reviewText: string, corpus: Corpus): (shown: Option<(real, Sentiment)>)
    ensures shown.None? <==> Unscorable(reviewText)
    ensures shown.None? <==> Estimate(reviewText, corpus).None?
    ensures shown.Some? ==> shown.value.0 == Estimate(reviewText, corpus).value
                            && shown.value.1 == Describe(shown.value.0)
  {
    NoEstimateIffBlank(reviewText, corpus);
    match Estimate(reviewText, corpus)
    case None => None
    case Some(estimated) => Some((estimated, Describe(estimated)))
  }

  /** With labels on the 0..4 scale every estimate is described by the label
      nearest to it, never by a clamped end. */
  lemma ShownDescriptionNearest(reviewText: string, corpus: Corpus)
    requires forall i :: 0 <= i < |corpus| ==> 0 <= corpus[i].score <= 4
    requires ReviewAndEstimate(reviewText, corpus).Some?
    ensures var (estimated, d) := ReviewAndEstimate(reviewText, corpus).value;
            0.0 <= estimated <= 4.0
            && d.Rank() as real - 0.5 <= estimated < d.Rank() as real + 0.5
  {
    EstimateWithinLabelRange(reviewText, corpus, 0, 4);
  }
}

=== FILE: estimator.dfy ===
/** The text estimator of the sentiment program: a review is cleaned of four
    punctuation characters, split on whitespace, and scored as the mean of
    its tokens' word scores (`calculate_estimated_score`, movie_sentiment.py). */
module Estimator {
  import opened Wrappers
  import opened Text
  import opened WordScorer

  /** The characters deleted from a review wherever they occur. */
  predicate IsPunctuation(c: char)
  {
    c == ',' || c == '.' || c == '!' || c == '-'
  }

  /** A string without any of the four punctuation characters. */
  predicate NoPunctuation(s: string)
  {
    forall i :: 0 <= i < |s| ==> !IsPunctuation(s[i])
  }

  /** A review of whitespace and punctuation only, the empty review
      included: nothing in it survives as a token. */
  predicate Unscorable(s: string)
  {
    forall i :: 0 <= i < |s| ==> IsSpace(s[i]) || IsPunctuation(s[i])
  }

  /** The review with every punctuation character deleted, the other
      characters kept in order. */
  function StripPunctuation(s: string): (r: string)
    ensures NoPunctuation(r)
  {
    if |s| == 0 then ""
    else (if IsPunctuation(s[0]) then "" else [s[0]]) + StripPunctuation(s[1..])
  }

  lemma {:induction false} StripAppend(a: string, b: string)
    ensures StripPunctuation(a + b) == StripPunctuation(a) + StripPunctuation(b)
  {
    if |a| == 0 {
      assert a + b == b;
    } else {
      assert (a + b)[1..] == a[1..] + b;
      StripAppend(a[1..], b);
    }
  }

  /** A string without punctuation is left as it is. */
  lemma {:induction false} StripPlain(s: string)
    requires NoPunctuation(s)
    ensures StripPunctuation(s) == s
  {
    if |s| > 0 {
      StripPlain(s[1..]);
      assert [s[0]] + s[1..] == s;
    }
  }

  /** Deleting is positional, not only at word edges: a punctuation character
      anywhere vanishes, and any other character stays where it was. */
  lemma StripCharacter(a: string, c: char, b: string)
    ensures IsPunctuation(c) ==> StripPunctuation(a + [c] + b) == StripPunctuation(a + b)
    ensures !IsPunctuation(c) ==>
              StripPunctuation(a + [c] + b) == StripPunctuation(a) + [c] + StripPunctuation(b)
  {
    StripAppend(a + [c], b);
    StripAppend(a, [c]);
    StripAppend(a, b);
    assert StripPunctuation([c]) == (if IsPunctuation(c) then "" else [c]) + StripPunctuation([]);
  }

  /** The cleaned review is all whitespace exactly when the review consists
      of whitespace and punctuation only. */
  lemma {:induction false} StripBlank(s: string)
    ensures Blank(StripPunctuation(s)) <==> Unscorable(s)
  {
    if |s| > 0 {
      StripBlank(s[1..]);
      var r := StripPunctuation(s);
      var rest := StripPunctuation(s[1..]);
      assert forall i :: 1 <= i < |s| ==> s[i] == s[1..][i - 1];
      if IsPunctuation(s[0]) {
        assert r == rest;
      } else {
        assert r == [s[0]] + rest;
        assert r[0] == s[0];
        assert forall i :: 0 <= i < |rest| ==> rest[i] == r[i + 1];
      }
    }
  }

  /** The tokens of a review: the cleaned text split on runs of whitespace. */
  function Tokenize(text: string): (tokens: seq<string>)
    ensures forall k :: 0 <= k < |tokens| ==> IsWord(tokens[k])
  {
    Words(StripPunctuation(text))
  }

  /** A punctuation character anywhere in the review, at a word's edge or
      inside it, does not change the tokens. */
  lemma TokenizeIgnoresPunctuation(a: string, c: char, b: string)
    requires IsPunctuation(c)
    ensures Tokenize(a + [c] + b) == Tokenize(a + b)
  {
    StripCharacter(a, c, b);
  }

  /** A whitespace character is never deleted, so the review is tokenised
      separately on either side of it. */
  lemma TokenizeSplitsAtSpace(a: string, c: char, b: string)
    requires IsSpace(c)
    ensures Tokenize(a + [c] + b) == Tokenize(a) + Tokenize(b)
  {
    StripCharacter(a, c, b);
    WordsSplitAtSpace(StripPunctuation(a), c, StripPunctuation(b));
  }

  /** The per-token word scores, one per token occurrence, in order. */
  function WordScores(tokens: seq<string>, corpus: Corpus): (scores: seq<real>)
    ensures |scores| == |tokens|
  {
    if |tokens| == 0 then []
    else [AverageReview(tokens[0], corpus)] + WordScores(tokens[1..], corpus)
  }

  function SumReals(xs: seq<real>): real
  {
    if |xs| == 0 then 0.0 else xs[0] + SumReals(xs[1..])
  }

  /** The mean of the word scores of a non-empty token list. */
  function MeanScore(tokens: seq<string>, corpus: Corpus): real
    requires |tokens| > 0
  {
    SumReals(WordScores(tokens, corpus)) / |tokens| as real
  }

  /** The estimate of a review, or `None` when it has no token to score. */
  function Estimate(text: string, corpus: Corpus): Option<real>
  {
    var tokens := Tokenize(text);
    if |tokens| == 0 then None else Some(MeanScore(tokens, corpus))
  }

  /** The exception `calculate_estimated_score` raises on a review with no
      token: it divides the total by a token count of zero. */
  datatype ArithmeticError = ZeroDivisionError

  /** `calculate_estimated_score` as written: the mean of the word scores,
      or a division by zero when there are no tokens. */
  function EstimateAsWritten(text: string, corpus: Corpus): Result<real, ArithmeticError>
  {
    var tokens := Tokenize(text);
    if |tokens| == 0 then Failure(ZeroDivisionError) else Success(MeanScore(tokens, corpus))
  }

  /** The two loops of `calculate_estimated_score`: copy every character that
      is not punctuation, split the copy on whitespace, then add up the word
      score of every token and divide by the number of tokens. An empty token
      list gives `None`, which is what the caller tests for. */
  method CalculateEstimatedScore(reviewText: string, corpus: Corpus) returns (estimated: Option<real>)
    ensures estimated == Estimate(reviewText, corpus)
    ensures estimated.None? <==> Unscorable(reviewText)
  {
    var clean := "";
    for i := 0 to |reviewText|
      invariant clean == StripPunctuation(reviewText[..i])
    {
      assert reviewText[..i + 1] == reviewText[..i] + [reviewText[i]];
      StripAppend(reviewText[..i], [reviewText[i]]);
      assert StripPunctuation([reviewText[i]])
             == (if IsPunctuation(reviewText[i]) then "" else [reviewText[i]]) + StripPunctuation([]);
      if !IsPunctuation(reviewText[i]) {
        clean := clean + [reviewText[i]];
      }
    }
    assert reviewText[..|reviewText|] == reviewText;
    var reviewWords := Words(clean);
    var numWords := 0;
    var totalScore := 0.0;
    for j := 0 to |reviewWords|
      invariant numWords == j
      invariant totalScore == SumReals(WordScores(reviewWords[..j], corpus))
    {
      var wordScore := CalculateAverageReview(reviewWords[j], corpus);
      assert reviewWords[..j + 1] == reviewWords[..j] + [reviewWords[j]];
      WordScoresAppend(reviewWords[..j], [reviewWords[j]], corpus);
      SumRealsAppend(WordScores(reviewWords[..j], corpus), WordScores([reviewWords[j]], corpus));
      totalScore := totalScore + wordScore;
      numWords := numWords + 1;
    }
    assert reviewWords[..|reviewWords|] == reviewWords;
    if numWords == 0 {
      estimated := None;
    } else {
      estimated := Some(totalScore / numWords as real);
    }
    NoEstimateIffBlank(reviewText, corpus);
  }

  lemma {:induction false} WordScoresAppend(t1: seq<string>, t2: seq<string>, corpus: Corpus)
    ensures WordScores(t1 + t2, corpus) == WordScores(t1, corpus) + WordScores(t2, corpus)
  {
    if |t1| == 0 {
      assert t1 + t2 == t2;
    } else {
      assert (t1 + t2)[1..] == t1[1..] + t2;
      WordScoresAppend(t1[1..], t2, corpus);
    }
  }

  lemma {:induction false} SumRealsAppend(xs: seq<real>, ys: seq<real>)
    ensures SumReals(xs + ys) == SumReals(xs) + SumReals(ys)
  {
    if |xs| == 0 {
      assert xs + ys == ys;
    } else {
      assert (xs + ys)[1..] == xs[1..] + ys;
      SumRealsAppend(xs[1..], ys);
    }
  }

  // ---------------------------------------------------------------------
  // Properties of the estimate

  /** There is no estimate exactly when the review holds nothing but
      whitespace and the four punctuation characters (the empty review
      included). */
  lemma NoEstimateIffBlank(text: string, corpus: Corpus)
    ensures Estimate(text, corpus).None? <==> Unscorable(text)
  {
    var clean := StripPunctuation(text);
    WordsEmptyIffBlank(clean);
    if Unscorable(text) {
      StripBlank(text);
      assert Words(clean) == [];
    } else {
      var i :| 0 <= i < |text| && !IsSpace(text[i]) && !IsPunctuation(text[i]);
      var before, after := text[..i], text[i + 1..];
      assert text == before + [text[i]] + after;
      StripCharacter(before, text[i], after);
      assert clean[|StripPunctuation(before)|] == text[i];
      assert Words(clean) != [];
    }
  }

  /** As written, exactly those reviews make the function divide by zero,
      where its documentation and its caller expect `None`. */
  lemma BlankReviewDividesByZero(text: string, corpus: Corpus)
    requires Unscorable(text)
    ensures EstimateAsWritten(text, corpus) == Failure(ZeroDivisionError)
    ensures Estimate(text, corpus) == None
  {
    NoEstimateIffBlank(text, corpus);
  }

  /** Wherever both versions produce a number they agree. */
  lemma AsWrittenAgreesOnScoredReviews(text: string, corpus: Corpus)
    requires !Unscorable(text)
    ensures EstimateAsWritten(text, corpus).Success?
    ensures Estimate(text, corpus) == Some(EstimateAsWritten(text, corpus).value)
  {
    NoEstimateIffBlank(text, corpus);
  }

  /** The estimate of a review none of whose tokens occurs in the corpus:
      every token scores the 2.0 fallback, so their mean is 2.0 as well.
      The code computes this mean; it does not return `None` here. */
  lemma AllUnseenEstimatesFallback(text: string, corpus: Corpus)
    requires Tokenize(text) != []
    requires forall k, j :: 0 <= k < |Tokenize(text)| && 0 <= j < |corpus| ==>
               !Mentions(corpus[j], Tokenize(text)[k])
    ensures Estimate(text, corpus) == Some(Fallback)
    ensures EstimateAsWritten(text, corpus) == Success(Fallback)
  {
    var tokens := Tokenize(text);
    var n := |tokens|;
    var scores := WordScores(tokens, corpus);
    forall k | 0 <= k < n
      ensures scores[k] == Repeat(Fallback, n)[k]
    {
      WordScoresAt(tokens, corpus, k);
      UnseenWordScoresFallback(tokens[k], corpus);
      RepeatAt(Fallback, n);
    }
    assert scores == Repeat(Fallback, n);
    SumRealsRepeat(Fallback, n);
    CancelCount(Fallback, n);
  }

  lemma {:induction false} SumRealsBounds(xs: seq<real>, lo: real, hi: real)
    requires forall k :: 0 <= k < |xs| ==> lo <= xs[k] <= hi
    ensures |xs| as real * lo <= SumReals(xs) <= |xs| as real * hi
  {
    if |xs| > 0 {
      SumRealsBounds(xs[1..], lo, hi);
    }
  }

  /** `MeanBounds` for a total that is already a real. */
  lemma RealMeanBounds(total: real, n: int, lo: real, hi: real)
    requires n > 0 && n as real * lo <= total <= n as real * hi
    ensures lo <= total / n as real <= hi
  {
    var nr := n as real;
    assert total / nr - lo == (total - nr * lo) / nr;
    assert hi - total / nr == (nr * hi - total) / nr;
  }

  /** When every corpus label and the fallback lie in `lo..hi`, so does every
      estimate: it is a mean of word scores, each of them in that range. */
  lemma EstimateWithinLabelRange(text: string, corpus: Corpus, lo: int, hi: int)
    requires forall i :: 0 <= i < |corpus| ==> lo <= corpus[i].score <= hi
    requires lo as real <= Fallback <= hi as real
    requires Estimate(text, corpus).Some?
    ensures lo as real <= Estimate(text, corpus).value <= hi as real
  {
    var tokens := Tokenize(text);
    MeanScoreWithin(tokens, corpus, lo, hi);
  }

  /** The mean of word scores that each lie in `lo..hi` lies in `lo..hi`. */
  lemma MeanScoreWithin(tokens: seq<string>, corpus: Corpus, lo: int, hi: int)
    requires forall i :: 0 <= i < |corpus| ==> lo <= corpus[i].score <= hi
    requires lo as real <= Fallback <= hi as real
    requires |tokens| > 0
    ensures lo as real <= MeanScore(tokens, corpus) <= hi as real
  {
    var scores := WordScores(tokens, corpus);
    WordScoresWithin(tokens, corpus, lo, hi);
    SumRealsBounds(scores, lo as real, hi as real);
    RealMeanBounds(SumReals(scores), |tokens|, lo as real, hi as real);
  }

  /** Every word score lies in any range that holds every label and the
      fallback. */
  lemma WordScoresWithin(tokens: seq<string>, corpus: Corpus, lo: int, hi: int)
    requires forall i :: 0 <= i < |corpus| ==> lo <= corpus[i].score <= hi
    requires lo as real <= Fallback <= hi as real
    ensures forall k :: 0 <= k < |tokens| ==>
              lo as real <= WordScores(tokens, corpus)[k] <= hi as real
  {
    forall k | 0 <= k < |tokens|
      ensures lo as real <= WordScores(tokens, corpus)[k] <= hi as real
    {
      WordScoresAt(tokens, corpus, k);
      ScoreWithinLabelRange(tokens[k], corpus, lo, hi);
    }
  }

  lemma {:induction false} WordScoresAt(tokens: seq<string>, corpus: Corpus, k: int)
    requires 0 <= k < |tokens|
    ensures WordScores(tokens, corpus)[k] == AverageReview(tokens[k], corpus)
  {
    if k > 0 {
      WordScoresAt(tokens[1..], corpus, k - 1);
    }
  }

  /** `k` copies of an item. */
  function Repeat<T>(x: T, k: nat): (xs: seq<T>)
    ensures |xs| == k
  {
    if k == 0 then [] else [x] + Repeat(x, k - 1)
  }

  lemma {:induction false} SumRealsRepeat(x: real, k: nat)
    ensures SumReals(Repeat(x, k)) == k as real * x
  {
    if k > 0 {
      SumRealsRepeat(x, k - 1);
    }
  }

  lemma {:induction false} WordScoresRepeat(w: string, k: nat, corpus: Corpus)
    ensures WordScores(Repeat(w, k), corpus) == Repeat(AverageReview(w, corpus), k)
  {
    if k > 0 {
      WordScoresRepeat(w, k - 1, corpus);
    }
  }

  lemma {:induction false} JoinWordsPlain(ws: seq<string>)
    requires forall k :: 0 <= k < |ws| ==> NoPunctuation(ws[k])
    ensures NoPunctuation(JoinWords(ws))
  {
    if |ws| > 1 {
      JoinWordsPlain(ws[1..]);
      var rest := JoinWords(ws[1..]);
      assert JoinWords(ws) == ws[0] + " " + rest;
      assert forall i :: |ws[0]| + 1 <= i < |JoinWords(ws)| ==> JoinWords(ws)[i] == rest[i - |ws[0]| - 1];
    }
  }

  lemma CancelCount(x: real, k: nat)
    requires k > 0
    ensures (k as real * x) / k as real == x
  {
  }

  /** A review made of one token repeated `k >= 1` times, separated by single
      spaces, scores exactly what the token scores on its own: repetition
      scales the total and the count alike. */
  lemma RepeatedWordScoresAsWord(w: string, k: nat, corpus: Corpus)
    requires IsWord(w) && k >= 1
    requires forall i :: 0 <= i < |w| ==> !IsPunctuation(w[i])
    ensures Estimate(JoinWords(Repeat(w, k)), corpus) == Some(AverageReview(w, corpus))
  {
    var ws := Repeat(w, k);
    assert forall j :: 0 <= j < |ws| ==> ws[j] == w by {
      RepeatAt(w, k);
    }
    JoinWordsPlain(ws);
    StripPlain(JoinWords(ws));
    WordsJoinWords(ws);
    assert Tokenize(JoinWords(ws)) == ws;
    var a := AverageReview(w, corpus);
    WordScoresRepeat(w, k, corpus);
    SumRealsRepeat(a, k);
    CancelCount(a, k);
    assert MeanScore(ws, corpus) == (k as real * a) / k as real;
  }

  lemma {:induction false} RepeatAt<T>(x: T, k: nat)
    ensures forall j :: 0 <= j < k ==> Repeat(x, k)[j] == x
  {
    if k > 0 {
      RepeatAt(x, k - 1);
    }
  }
}

=== FILE: hurricane.dfy ===
/** The classification lookups of the hurricane tracker (hurricane_tracker.py):
    wind speed to category, category to point colour, category to pen size. */
module Hurricane {
  import opened Wrappers

  /** The lowest wind speed, in mph, of categories 1 to 5. */
  const Thresholds: seq<int> := [74, 96, 111, 130, 157]

  /** `calculate_category`: the storm category of a maximum wind speed,
      0 below hurricane strength and 5 at the top. */
  function CalculateCategory(windSpeedMph: int): (category: int)
    ensures 0 <= category <= 5
  {
    if windSpeedMph > 156 then 5
    else if windSpeedMph >= 130 then 4
    else if windSpeedMph >= 111 then 3
    else if windSpeedMph >= 96 then 2
    else if windSpeedMph >= 74 then 1
    else 0
  }

  /** How many of the thresholds a speed reaches. */
  function Reached(thresholds: seq<int>, speed: int): (n: nat)
    ensures n <= |thresholds|
  {
    if |thresholds| == 0 then 0
    else (if thresholds[0] <= speed then 1 else 0) + Reached(thresholds[1..], speed)
  }

  /** The category is the number of thresholds the speed reaches: each
      boundary belongs to the category above it. */
  lemma CategoryCountsThresholds(windSpeedMph: int)
    ensures CalculateCategory(windSpeedMph) == Reached(Thresholds, windSpeedMph)
  {
    var s := windSpeedMph;
    assert [157][1..] == [];
    assert Reached([157], s) == (if 157 <= s then 1 else 0);
    assert [130, 157][1..] == [157];
    assert Reached([130, 157], s) == (if 130 <= s then 1 else 0) + Reached([157], s);
    assert [111, 130, 157][1..] == [130, 157];
    assert Reached([111, 130, 157], s) == (if 111 <= s then 1 else 0) + Reached([130, 157], s);
    assert [96, 111, 130, 157][1..] == [111, 130, 157];
    assert Reached([96, 111, 130, 157], s) == (if 96 <= s then 1 else 0) + Reached([111, 130, 157], s);
    assert Thresholds[1..] == [96, 111, 130, 157];
  }

  /** The speed band of every category. */
  lemma CategoryBands(windSpeedMph: int)
    ensures CalculateCategory(windSpeedMph) == 5 <==> windSpeedMph >= 157
    ensures CalculateCategory(windSpeedMph) == 4 <==> 130 <= windSpeedMph <= 156
    ensures CalculateCategory(windSpeedMph) == 3 <==> 111 <= windSpeedMph <= 129
    ensures CalculateCategory(windSpeedMph) == 2 <==> 96 <= windSpeedMph <= 110
    ensures CalculateCategory(windSpeedMph) == 1 <==> 74 <= windSpeedMph <= 95
    ensures CalculateCategory(windSpeedMph) == 0 <==> windSpeedMph < 74
  {
  }

  /** The speeds on either side of the lowest and the highest boundary. */
  lemma CategoryBoundaryExamples()
    ensures CalculateCategory(73) == 0 && CalculateCategory(74) == 1
    ensures CalculateCategory(156) == 4 && CalculateCategory(157) == 5
  {
  }

  /** A stronger wind never gives a lower category. */
  lemma CategoryMonotone(slower: int, faster: int)
    requires slower <= faster
    ensures CalculateCategory(slower) <= CalculateCategory(faster)
  {
  }

  /** `get_point_color`: the turtle colour of a category, and no colour
      (Python's implicit `None`) for anything outside 0..5. */
  function GetPointColor(category: int): (color: Option<string>)
    ensures color.Some? <==> 0 <= category <= 5
  {
    if category == 0 then Some("white")
    else if category == 1 then Some("blue")
    else if category == 2 then Some("green")
    else if category == 3 then Some("yellow")
    else if category == 4 then Some("orange")
    else if category == 5 then Some("red")
    else None
  }

  /** The colour of each category, from white below hurricane strength
      through blue, green, yellow and orange to red for category 5. */
  lemma PointColorTable()
    ensures GetPointColor(0) == Some("white") && GetPointColor(1) == Some("blue")
    ensures GetPointColor(2) == Some("green") && GetPointColor(3) == Some("yellow")
    ensures GetPointColor(4) == Some("orange") && GetPointColor(5) == Some("red")
    ensures GetPointColor(-1) == None && GetPointColor(6) == None
  {
  }

  /** The category a colour name stands for on the map, if any. */
  function ColorCategory(color: string): (category: Option<int>)
  {
    if color == "white" then Some(0)
    else if color == "blue" then Some(1)
    else if color == "green" then Some(2)
    else if color == "yellow" then Some(3)
    else if color == "orange" then Some(4)
    else if color == "red" then Some(5)
    else None
  }

  /** The colour of a point tells its category back: distinct categories are
      drawn in distinct colours. */
  lemma PointColorIdentifiesCategory(category: int)
    requires 0 <= category <= 5
    ensures ColorCategory(GetPointColor(category).value) == Some(category)
  {
  }

  /** Two categories share a colour only when they are the same category. */
  lemma PointColorsDistinct(c1: int, c2: int)
    requires GetPointColor(c1).Some? && GetPointColor(c2).Some?
    requires GetPointColor(c1) == GetPointColor(c2)
    ensures c1 == c2
  {
    PointColorIdentifiesCategory(c1);
    PointColorIdentifiesCategory(c2);
  }

  /** `get_line_size`: the pen thickness for a category. */
  function GetLineSize(category: int): int
  {
    category + 1
  }

  /** Pen sizes grow strictly with the category, one unit per category. */
  lemma LineSizeStepsWithCategory(c1: int, c2: int)
    ensures GetLineSize(c2) - GetLineSize(c1) == c2 - c1
    ensures c1 < c2 ==> GetLineSize(c1) < GetLineSize(c2)
  {
  }

  /** Every wind speed is drawn with a colour, never `None`, and with a pen
      size from 1 to 6 that does not shrink as the wind grows. */
  lemma StyleOfEverySpeed(windSpeedMph: int, faster: int)
    requires windSpeedMph <= faster
    ensures GetPointColor(CalculateCategory(windSpeedMph)).Some?
    ensures 1 <= GetLineSize(CalculateCategory(windSpeedMph)) <= 6
    ensures GetLineSize(CalculateCategory(windSpeedMph)) <= GetLineSize(CalculateCategory(faster))
  {
    CategoryMonotone(windSpeedMph, faster);
  }
}

=== FILE: scenarios.dfy ===
/** Small corpora that show how whole-field matching works, stated for
    arbitrary words rather than literal text: a word shared by two reviews,
    a word repeated inside one review, a word inside a longer field, a line
    that keeps its newline, and punctuation at and inside a token. */
module Scenarios {
  import opened Text
  import opened WordScorer
  import opened Estimator

  /** A field as it appears in a lower-cased corpus line: no space and no
      upper-case letter. */
  predicate Plain(s: string)
  {
    ' ' !in s && Lower(s) == s
  }

  /** A review text of two plain fields contains exactly those two words. */
  lemma MentionsTwoFields(r: Review, a: string, b: string, w: string)
    requires r.text == a + " " + b && Plain(a) && Plain(b)
    ensures Mentions(r, w) <==> Lower(w) == a || Lower(w) == b
  {
    LowerAppend(a + " ", b);
    LowerAppend(a, " ");
    assert Lower(" ") == " ";
    SplitAfterField(a, b, ' ');
    SplitOfPlain(b, ' ');
    assert Split(Lower(r.text), ' ') == [a, b];
  }

  lemma MentionsOneField(r: Review, a: string, w: string)
    requires r.text == a && Plain(a)
    ensures Mentions(r, w) <==> Lower(w) == a
  {
    SplitOfPlain(a, ' ');
  }

  /** Two reviews "a w" and "b w" labelled x and y: the shared word scores
      their mean, and a word of one review only scores that review's label. */
  lemma SharedWordScoresMean(a: string, b: string, w: string, x: int, y: int)
    requires Plain(a) && Plain(b) && Plain(w) && a != w && b != w && a != b
    ensures var corpus := [Review(x, a + " " + w), Review(y, b + " " + w)];
            AverageReview(w, corpus) == (x + y) as real / 2.0
            && AverageReview(a, corpus) == x as real
  {
    var r1, r2 := Review(x, a + " " + w), Review(y, b + " " + w);
    LowerIdempotent(w);
    MentionsTwoFields(r1, a, w, w);
    MentionsTwoFields(r2, b, w, w);
    MatchingLabelsPair(r1, r2, w);
    LowerIdempotent(a);
    MentionsTwoFields(r1, a, w, a);
    MentionsTwoFields(r2, b, w, a);
    MatchingLabelsPair(r1, r2, a);
    SumPair(x, y);
  }

  /** A review "w w" labelled x next to a review "w" labelled y: the first
      review counts once, so the score is the mean of x and y, not of x, x
      and y. */
  lemma RepeatedWordCountsOncePerReview(w: string, x: int, y: int)
    requires Plain(w)
    ensures AverageReview(w, [Review(x, w + " " + w), Review(y, w)]) == (x + y) as real / 2.0
  {
    var r1, r2 := Review(x, w + " " + w), Review(y, w);
    MentionsTwoFields(r1, w, w, w);
    MentionsOneField(r2, w, w);
    MatchingLabelsPair(r1, r2, w);
    SumPair(x, y);
  }

  /** The matching labels of a two-review corpus, review by review. */
  lemma MatchingLabelsPair(r1: Review, r2: Review, word: string)
    ensures MatchingLabels([r1, r2], word)
            == (if Mentions(r1, word) then [r1.score] else [])
               + (if Mentions(r2, word) then [r2.score] else [])
  {
    assert [r1, r2] == [r1] + [r2];
    MatchingLabelsSnoc([r1], r2, word);
    MatchingLabelsSnoc([], r1, word);
    assert [] + [r1] == [r1];
  }

  lemma SumPair(x: int, y: int)
    ensures Sum([x, y]) == x + y && Sum([x]) == x
  {
    assert [x, y][1..] == [y];
    assert [x][1..] == [] && [y][1..] == [];
    assert Sum([y]) == y + Sum([]);
  }

  /** A word that is only a proper prefix of a review's single field (as
      "great" in "greatest") does not match it. */
  lemma PrefixOfFieldDoesNotMatch(w: string, rest: string, x: int)
    requires Plain(w + rest) && |rest| > 0
    ensures AverageReview(w, [Review(x, w + rest)]) == 2.0
  {
    var corpus := [Review(x, w + rest)];
    MentionsOneField(corpus[0], w + rest, w);
    LowerLength(w);
    assert !Mentions(corpus[0], w);
    UnseenWordScoresFallback(w, corpus);
  }

  /** The review "a w" labelled x gives w the score x, but the same line
      read from a file as "a w\n" leaves w unmatched and at the fallback. */
  lemma TrailingNewlineLosesLastWord(a: string, w: string, x: int)
    requires Plain(a) && Plain(w) && a != w && '\n' !in w
    ensures AverageReview(w, [Review(x, a + " " + w)]) == x as real
    ensures AverageReview(w, [Review(x, a + " " + w + "\n")]) == 2.0
  {
    var stripped := [Review(x, a + " " + w)];
    MentionsTwoFields(stripped[0], a, w, w);
    assert MatchingLabels(stripped, w) == [x];
    var read := [Review(x, a + " " + w + "\n")];
    var last := w + "\n";
    assert ' ' !in last;
    LowerAppend(w, "\n");
    assert Lower("\n") == "\n";
    assert Plain(last);
    assert read[0].text == a + " " + last;
    MentionsTwoFields(read[0], a, last, w);
    assert |last| == |w| + 1;
    assert !Mentions(read[0], w);
    UnseenWordScoresFallback(w, read);
  }

  /** A space before the newline keeps the last word: the line "a w \n"
      splits into the fields a, w and "\n", so w still scores x. */
  lemma SpaceBeforeNewlineKeepsLastWord(a: string, w: string, x: int)
    requires Plain(a) && Plain(w)
    ensures AverageReview(w, [Review(x, a + " " + w + " \n")]) == x as real
  {
    var text := a + " " + w + " \n";
    var r := Review(x, text);
    LowerAppend(a + " " + w, " \n");
    LowerAppend(a + " ", w);
    LowerAppend(a, " ");
    assert Lower(" ") == " ";
    assert Lower(" \n") == " \n";
    assert Lower(text) == text;
    assert text == a + [' '] + (w + [' '] + "\n");
    SplitAfterField(a, w + [' '] + "\n", ' ');
    SplitAfterField(w, "\n", ' ');
    SplitOfPlain("\n", ' ');
    assert Split(text, ' ') == [a, w, "\n"];
    assert Mentions(r, w);
    assert MatchingLabels([r], w) == [x] + MatchingLabels([], w);
    assert MatchingLabels([r], w) == [x];
    SumPair(x, x);
  }

  /** A trailing "!" is dropped, so a word followed by "!" is the word
      alone, and an inner "-" joins its two sides into one token. */
  lemma PunctuationInTokens(a: string, b: string)
    requires IsWord(a) && IsWord(b)
    requires NoPunctuation(a) && NoPunctuation(b)
    ensures Tokenize(a + "!") == Tokenize(a) == [a]
    ensures Tokenize(a + "-" + b) == [a + b]
  {
    TokenizeIgnoresPunctuation(a, '!', "");
    assert a + "!" == a + ['!'] + "" && a + "" == a;
    StripPlain(a);
    WordsOfWord(a);
    TokenizeIgnoresPunctuation(a, '-', b);
    assert a + "-" + b == a + ['-'] + b;
    assert forall i :: |a| <= i < |a + b| ==> (a + b)[i] == b[i - |a|];
    StripPlain(a + b);
    WordsOfWord(a + b);
  }
}

=== FILE: text.dfy ===
/** The Python string built-ins the sentiment scorer relies on: `str.lower`,
    `str.split(sep)` with an explicit one-character separator, and
    `str.split()` with no argument. */
module Text {

  /** Lower-casing of one character. Only ASCII letters are mapped; every
      other character is left as it is. */
  function LowerChar(c: char): char
  {
    if 'A' <= c <= 'Z' then (c as int - 'A' as int + 'a' as int) as char else c
  }

  /** `s.lower()`, character by character. */
  function Lower(s: string): string
  {
    if |s| == 0 then "" else [LowerChar(s[0])] + Lower(s[1..])
  }

  lemma {:induction false} LowerLength(s: string)
    ensures |Lower(s)| == |s|
  {
    if |s| > 0 {
      LowerLength(s[1..]);
    }
  }

  /** Lower-casing works character by character: each position holds the
      lower case of the character that stood there. */
  lemma {:induction false} LowerAt(s: string, i: int)
    requires 0 <= i < |s|
    ensures |Lower(s)| == |s| && Lower(s)[i] == LowerChar(s[i])
  {
    LowerLength(s);
    if i > 0 {
      LowerAt(s[1..], i - 1);
    }
  }

  lemma {:induction false} LowerAppend(a: string, b: string)
    ensures Lower(a + b) == Lower(a) + Lower(b)
  {
    if |a| == 0 {
      assert a + b == b;
    } else {
      assert (a + b)[1..] == a[1..] + b;
      LowerAppend(a[1..], b);
    }
  }

  /** Lower-casing twice is lower-casing once. */
  lemma {:induction false} LowerIdempotent(s: string)
    ensures Lower(Lower(s)) == Lower(s)
  {
    if |s| > 0 {
      LowerIdempotent(s[1..]);
    }
  }

  /** A string without upper-case ASCII letters is its own lower case. */
  lemma {:induction false} LowerFixed(s: string)
    requires forall i :: 0 <= i < |s| ==> !('A' <= s[i] <= 'Z')
    ensures Lower(s) == s
  {
    if |s| > 0 {
      LowerFixed(s[1..]);
    }
  }

  /** Lower-casing never introduces a character that is not a letter unless
      it was already there: a character other than an ASCII letter occurs in
      the lower-cased string exactly where it occurred in the original. */
  lemma {:induction false} LowerKeeps(s: string, c: char)
    requires !('A' <= c <= 'Z') && !('a' <= c <= 'z')
    ensures c in Lower(s) <==> c in s
  {
    if |s| > 0 {
      LowerKeeps(s[1..], c);
      assert s == [s[0]] + s[1..];
    }
  }

  // ---------------------------------------------------------------------
  // str.split(sep)

  /** `s.split(sep)` for a one-character separator: the fields between
      consecutive separators, empty fields included, so there is always one
      field more than there are separators. */
  function Split(s: string, sep: char): (fields: seq<string>)
    ensures |fields| >= 1
    decreases |s|
  {
    if |s| == 0 then [""]
    else
      var rest := Split(s[1..], sep);
      if s[0] == sep then [""] + rest
      else [[s[0]] + rest[0]] + rest[1..]
  }

  /** `sep.join(fields)`, the inverse of `Split`. */
  function Join(fields: seq<string>, sep: char): string
    requires |fields| >= 1
    decreases |fields|
  {
    if |fields| == 1 then fields[0]
    else fields[0] + [sep] + Join(fields[1..], sep)
  }

  /** No field produced by `Split` contains the separator. */
  lemma {:induction false} SplitFieldsExcludeSep(s: string, sep: char)
    ensures forall i :: 0 <= i < |Split(s, sep)| ==> sep !in Split(s, sep)[i]
    decreases |s|
  {
    if |s| > 0 {
      SplitFieldsExcludeSep(s[1..], sep);
    }
  }

  /** Joining the fields back with the separator rebuilds the string. */
  lemma {:induction false} JoinSplit(s: string, sep: char)
    ensures Join(Split(s, sep), sep) == s
    decreases |s|
  {
    if |s| > 0 {
      var rest := Split(s[1..], sep);
      JoinSplit(s[1..], sep);
      if s[0] == sep {
        assert ([""] + rest)[1..] == rest;
      } else {
        var fs := [[s[0]] + rest[0]] + rest[1..];
        if |rest| == 1 {
          assert fs == [[s[0]] + rest[0]];
        } else {
          assert fs[1..] == rest[1..];
          assert Join(rest, sep) == rest[0] + [sep] + Join(rest[1..], sep);
        }
      }
    }
  }

  /** Splitting a joined list of separator-free fields gives the fields back. */
  lemma {:induction false} SplitJoin(fields: seq<string>, sep: char)
    requires |fields| >= 1
    requires forall i :: 0 <= i < |fields| ==> sep !in fields[i]
    ensures Split(Join(fields, sep), sep) == fields
    decreases |fields|
  {
    if |fields| == 1 {
      SplitOfPlain(fields[0], sep);
    } else {
      SplitJoin(fields[1..], sep);
      SplitAfterField(fields[0], Join(fields[1..], sep), sep);
    }
  }

  /** A string without the separator is a single field. */
  lemma {:induction false} SplitOfPlain(a: string, sep: char)
    requires sep !in a
    ensures Split(a, sep) == [a]
    decreases |a|
  {
    if |a| > 0 {
      SplitOfPlain(a[1..], sep);
      assert [a[0]] + a[1..] == a;
    }
  }

  /** A separator-free prefix followed by the separator is the first field. */
  lemma {:induction false} SplitAfterField(a: string, b: string, sep: char)
    requires sep !in a
    ensures Split(a + [sep] + b, sep) == [a] + Split(b, sep)
    decreases |a|
  {
    var s := a + [sep] + b;
    if |a| == 0 {
      assert s[1..] == b;
    } else {
      assert s[1..] == a[1..] + [sep] + b;
      SplitAfterField(a[1..], b, sep);
      assert [a[0]] + a[1..] == a;
    }
  }

  /** A string that does not end in the separator has a last field that
      ends in the string's last character. */
  lemma {:induction false} SplitLastField(s: string, sep: char)
    requires |s| > 0 && s[|s| - 1] != sep
    ensures var fs := Split(s, sep);
            |fs[|fs| - 1]| > 0 && fs[|fs| - 1][|fs[|fs| - 1]| - 1] == s[|s| - 1]
    decreases |s|
  {
    var fs := Split(s, sep);
    if |s| == 1 {
      assert Split(s[1..], sep) == [""];
      assert fs[|fs| - 1] == [s[0]];
    } else {
      var tail := s[1..];
      assert tail[|tail| - 1] == s[|s| - 1];
      SplitLastField(tail, sep);
      var rest := Split(tail, sep);
      var last := rest[|rest| - 1];
      if s[0] == sep {
        assert fs == [""] + rest;
        assert fs[|fs| - 1] == last;
      } else {
        assert fs == [[s[0]] + rest[0]] + rest[1..];
        if |rest| == 1 {
          assert fs[|fs| - 1] == [s[0]] + last;
        } else {
          assert fs[|fs| - 1] == last;
        }
      }
    }
  }

  // ---------------------------------------------------------------------
  // str.split()

  /** The characters `str.isspace` accepts, by code point: the ASCII
      controls TAB to CR, the four separators 0x1C to 0x1F, SPACE, NEL,
      NO-BREAK SPACE and the Unicode space separators. */
  predicate IsSpace(c: char)
  {
    var n := c as int;
    (0x09 <= n <= 0x0D) || (0x1C <= n <= 0x20) || n == 0x85 || n == 0xA0
    || n == 0x1680 || (0x2000 <= n <= 0x200A) || n == 0x2028 || n == 0x2029
    || n == 0x202F || n == 0x205F || n == 0x3000
  }

  /** A token of `str.split()`: non-empty and without whitespace. */
  predicate IsWord(w: string)
  {
    |w| > 0 && forall i :: 0 <= i < |w| ==> !IsSpace(w[i])
  }

  /** The length of the longest whitespace-free prefix of `s`. */
  function RunLength(s: string): (n: nat)
    ensures n <= |s|
    ensures forall i :: 0 <= i < n ==> !IsSpace(s[i])
    ensures n < |s| ==> IsSpace(s[n])
    decreases |s|
  {
    if |s| == 0 || IsSpace(s[0]) then 0 else 1 + RunLength(s[1..])
  }

  /** `s.split()`: the maximal runs of non-whitespace characters, in order;
      whitespace of any length separates them and no empty token is kept. */
  function Words(s: string): (ws: seq<string>)
    ensures forall i :: 0 <= i < |ws| ==> IsWord(ws[i])
    decreases |s|
  {
    if |s| == 0 then []
    else if IsSpace(s[0]) then Words(s[1..])
    else
      var n := RunLength(s);
      [s[..n]] + Words(s[n..])
  }

  /** The characters of `s` that are not whitespace, in order. */
  function NonSpace(s: string): string
  {
    if |s| == 0 then "" else (if IsSpace(s[0]) then "" else [s[0]]) + NonSpace(s[1..])
  }

  function Concat(ws: seq<string>): string
  {
    if |ws| == 0 then "" else ws[0] + Concat(ws[1..])
  }

  lemma {:induction false} NonSpaceAppend(a: string, b: string)
    ensures NonSpace(a + b) == NonSpace(a) + NonSpace(b)
  {
    if |a| == 0 {
      assert a + b == b;
    } else {
      assert (a + b)[1..] == a[1..] + b;
      NonSpaceAppend(a[1..], b);
    }
  }

  /** `NonSpace` keeps a whitespace-free string whole. */
  lemma {:induction false} NonSpaceOfWord(w: string)
    requires forall i :: 0 <= i < |w| ==> !IsSpace(w[i])
    ensures NonSpace(w) == w
  {
    if |w| > 0 {
      NonSpaceOfWord(w[1..]);
      assert [w[0]] + w[1..] == w;
    }
  }

  /** The tokens, glued together, are exactly the non-whitespace characters
      of the input: `str.split()` loses whitespace and nothing else. */
  lemma {:induction false} WordsCoverNonSpace(s: string)
    ensures Concat(Words(s)) == NonSpace(s)
    decreases |s|
  {
    if |s| > 0 {
      if IsSpace(s[0]) {
        WordsCoverNonSpace(s[1..]);
      } else {
        var n := RunLength(s);
        WordsCoverNonSpace(s[n..]);
        assert s == s[..n] + s[n..];
        NonSpaceAppend(s[..n], s[n..]);
        NonSpaceOfWord(s[..n]);
        assert ([s[..n]] + Words(s[n..]))[1..] == Words(s[n..]);
      }
    }
  }

  /** A string of whitespace only, the empty string included. */
  predicate Blank(s: string)
  {
    forall i :: 0 <= i < |s| ==> IsSpace(s[i])
  }

  /** There are no tokens exactly when the input is all whitespace. */
  lemma {:induction false} WordsEmptyIffBlank(s: string)
    ensures Words(s) == [] <==> Blank(s)
    decreases |s|
  {
    if |s| > 0 {
      WordsEmptyIffBlank(s[1..]);
      if IsSpace(s[0]) {
        assert forall i :: 1 <= i < |s| ==> s[i] == s[1..][i - 1];
      }
    }
  }

  /** Tokens joined by single spaces. */
  function JoinWords(ws: seq<string>): string
  {
    if |ws| == 0 then "" else if |ws| == 1 then ws[0] else ws[0] + " " + JoinWords(ws[1..])
  }

  /** A whitespace-free word is a token on its own. */
  lemma {:induction false} WordsOfWord(w: string)
    requires IsWord(w)
    ensures Words(w) == [w]
  {
    assert RunLength(w) == |w|;
    assert w[..|w|] == w;
    assert w[|w|..] == "";
  }

  /** A word followed by a space is the first token. */
  lemma {:induction false} WordsAfterWord(w: string, rest: string)
    requires IsWord(w)
    ensures Words(w + " " + rest) == [w] + Words(rest)
  {
    var s := w + " " + rest;
    RunLengthOfWord(w, " " + rest);
    assert s[..|w|] == w;
    assert s[|w|..] == " " + rest;
    assert (" " + rest)[1..] == rest;
  }

  lemma {:induction false} RunLengthOfWord(w: string, t: string)
    requires forall i :: 0 <= i < |w| ==> !IsSpace(w[i])
    requires |t| > 0 && IsSpace(t[0])
    ensures RunLength(w + t) == |w|
    decreases |w|
  {
    if |w| > 0 {
      assert (w + t)[1..] == w[1..] + t;
      RunLengthOfWord(w[1..], t);
    } else {
      assert w + t == t;
    }
  }

  /** A whitespace character right after `a` ends `a`'s last run, so the
      run at the start of `a` is the same with or without what follows. */
  lemma {:induction false} RunLengthPrefix(a: string, t: string)
    requires |t| > 0 && IsSpace(t[0])
    ensures RunLength(a + t) == RunLength(a)
    decreases |a|
  {
    if |a| == 0 {
      assert a + t == t;
    } else {
      assert (a + t)[0] == a[0];
      if !IsSpace(a[0]) {
        assert (a + t)[1..] == a[1..] + t;
        RunLengthPrefix(a[1..], t);
      }
    }
  }

  /** `str.split()` cuts at every whitespace character: the tokens on either
      side of one are split separately, whatever else surrounds it. With
      `WordsOfWord` and `Words("") == []` this determines `Words` on every
      input, runs of several whitespace characters included. */
  lemma {:induction false} WordsSplitAtSpace(a: string, c: char, b: string)
    requires IsSpace(c)
    ensures Words(a + [c] + b) == Words(a) + Words(b)
    decreases |a|
  {
    var s := a + [c] + b;
    if |a| == 0 {
      assert s == [c] + b;
      assert s[1..] == b;
    } else if IsSpace(a[0]) {
      assert s[0] == a[0];
      assert s[1..] == a[1..] + [c] + b;
      WordsSplitAtSpace(a[1..], c, b);
    } else {
      assert s[0] == a[0];
      var n := RunLength(a);
      assert s == a + ([c] + b);
      RunLengthPrefix(a, [c] + b);
      assert RunLength(s) == n;
      assert s[..n] == a[..n];
      assert s[n..] == a[n..] + [c] + b;
      WordsSplitAtSpace(a[n..], c, b);
      assert Words(a) == [a[..n]] + Words(a[n..]);
    }
  }

  /** Splitting words joined by single spaces gives the words back. */
  lemma {:induction false} WordsJoinWords(ws: seq<string>)
    requires forall i :: 0 <= i < |ws| ==> IsWord(ws[i])
    ensures Words(JoinWords(ws)) == ws
    decreases |ws|
  {
    if |ws| == 1 {
      WordsOfWord(ws[0]);
    } else if |ws| > 1 {
      WordsJoinWords(ws[1..]);
      WordsAfterWord(ws[0], JoinWords(ws[1..]));
    }
  }
}

=== FILE: word_scorer.dfy ===
/** The word scorer of the sentiment program: the average label of the corpus
    reviews that contain a given word, or a neutral fallback of 2.0 when none
    does (`calculate_average_review`, movie_sentiment.py). */
module WordScorer {
  import opened Text

  /** One corpus line `<label> <text>`. The label is the already-parsed
      integer value of the line's first space-separated field; `text` is
      everything after the first space, kept verbatim, so a line read from
      a file still ends with its "\n". */
  datatype Review = Review(score: int, text: string)

  type Corpus = seq<Review>

  /** The score of a word no review contains: the middle of the 0..4 scale. */
  const Fallback: real := 2.0

  /** A review contains a word when the lower-cased word is one of the
      lower-cased text's fields, splitting on single spaces. */
  predicate Mentions(r: Review, word: string)
  {
    Lower(word) in Split(Lower(r.text), ' ')
  }

  /** The labels of the reviews that contain `word`, in corpus order, one
      per review however often the word occurs in it. */
  function MatchingLabels(corpus: Corpus, word: string): (labels: seq<int>)
    ensures |labels| <= |corpus|
  {
    if |corpus| == 0 then []
    else
      (if Mentions(corpus[0], word) then [corpus[0].score] else [])
      + MatchingLabels(corpus[1..], word)
  }

  function Sum(xs: seq<int>): int
  {
    if |xs| == 0 then 0 else xs[0] + Sum(xs[1..])
  }

  /** The reference definition of a word's score: the mean label of the
      reviews containing it, or `Fallback` when there are none. */
  function AverageReview(word: string, corpus: Corpus): real
  {
    var labels := MatchingLabels(corpus, word);
    if |labels| == 0 then Fallback else Sum(labels) as real / |labels| as real
  }

  /** The scan of `calculate_average_review`: one pass over the corpus lines
      keeping a running count and label total of the lines that contain the
      word, then the mean, or 2.0 when the count is zero. */
  method CalculateAverageReview(targetWord: string, corpus: Corpus) returns (average: real)
    ensures average == AverageReview(targetWord, corpus)
  {
    var numReviews := 0;
    var totalScore := 0;
    var key := Lower(targetWord);
    for i := 0 to |corpus|
      invariant numReviews == |MatchingLabels(corpus[..i], targetWord)|
      invariant totalScore == Sum(MatchingLabels(corpus[..i], targetWord))
    {
      var review := corpus[i];
      assert corpus[..i + 1] == corpus[..i] + [review];
      MatchingLabelsSnoc(corpus[..i], review, targetWord);
      if key in Split(Lower(review.text), ' ') {
        assert Mentions(review, targetWord);
        SumAppend(MatchingLabels(corpus[..i], targetWord), [review.score]);
        assert Sum([review.score]) == review.score + Sum([]);
        totalScore := totalScore + review.score;
        numReviews := numReviews + 1;
        assert totalScore == Sum(MatchingLabels(corpus[..i + 1], targetWord));
      } else {
        assert MatchingLabels(corpus[..i], targetWord) + [] == MatchingLabels(corpus[..i], targetWord);
      }
    }
    assert corpus[..|corpus|] == corpus;
    if numReviews == 0 {
      average := 2.0;
    } else {
      average := totalScore as real / numReviews as real;
    }
    assert MatchingLabels(corpus, targetWord) == MatchingLabels(corpus[..|corpus|], targetWord);
  }

  // ---------------------------------------------------------------------
  // Structure of the matching labels

  /** The matching labels of a concatenated corpus are those of each part:
      every review adds to the total on its own, independently of the rest. */
  lemma {:induction false} MatchingLabelsAppend(c1: Corpus, c2: Corpus, word: string)
    ensures MatchingLabels(c1 + c2, word) == MatchingLabels(c1, word) + MatchingLabels(c2, word)
  {
    if |c1| == 0 {
      assert c1 + c2 == c2;
    } else {
      var c := c1 + c2;
      assert c[0] == c1[0];
      assert c[1..] == c1[1..] + c2;
      var head := if Mentions(c1[0], word) then [c1[0].score] else [];
      assert MatchingLabels(c1, word) == head + MatchingLabels(c1[1..], word);
      assert MatchingLabels(c, word) == head + MatchingLabels(c1[1..] + c2, word);
      MatchingLabelsAppend(c1[1..], c2, word);
    }
  }

  lemma {:induction false} SumAppend(xs: seq<int>, ys: seq<int>)
    ensures Sum(xs + ys) == Sum(xs) + Sum(ys)
  {
    if |xs| == 0 {
      assert xs + ys == ys;
    } else {
      assert (xs + ys)[1..] == xs[1..] + ys;
      SumAppend(xs[1..], ys);
    }
  }

  /** Appending one review adds its score to the matching labels exactly
      when it contains the word, and adds nothing otherwise. */
  lemma MatchingLabelsSnoc(corpus: Corpus, r: Review, word: string)
    ensures MatchingLabels(corpus + [r], word)
            == MatchingLabels(corpus, word) + (if Mentions(r, word) then [r.score] else [])
  {
    MatchingLabelsAppend(corpus, [r], word);
    assert MatchingLabels([r], word)
           == (if Mentions(r, word) then [r.score] else []) + MatchingLabels([], word);
  }

  /** The review at position `i` contributes its own score, once and in its
      place between the contributions of the reviews before and after it,
      when it contains the word, and contributes nothing otherwise. */
  lemma MatchingLabelsComplete(corpus: Corpus, word: string, i: int)
    requires 0 <= i < |corpus|
    ensures MatchingLabels(corpus, word)
            == MatchingLabels(corpus[..i], word)
               + (if Mentions(corpus[i], word) then [corpus[i].score] else [])
               + MatchingLabels(corpus[i + 1..], word)
    ensures Mentions(corpus[i], word) ==> corpus[i].score in MatchingLabels(corpus, word)
  {
    assert corpus == corpus[..i + 1] + corpus[i + 1..];
    assert corpus[..i + 1] == corpus[..i] + [corpus[i]];
    MatchingLabelsAppend(corpus[..i + 1], corpus[i + 1..], word);
    MatchingLabelsSnoc(corpus[..i], corpus[i], word);
  }

  /** Every matching label is the score of a review that contains the word. */
  lemma {:induction false} MatchingLabelsSound(corpus: Corpus, word: string, k: int)
    requires 0 <= k < |MatchingLabels(corpus, word)|
    ensures exists i :: 0 <= i < |corpus| && Mentions(corpus[i], word)
                        && corpus[i].score == MatchingLabels(corpus, word)[k]
  {
    var head := if Mentions(corpus[0], word) then [corpus[0].score] else [];
    var tail := corpus[1..];
    assert MatchingLabels(corpus, word) == head + MatchingLabels(tail, word);
    if k < |head| {
      assert Mentions(corpus[0], word) && corpus[0].score == MatchingLabels(corpus, word)[k];
    } else {
      MatchingLabelsSound(tail, word, k - |head|);
      var i :| 0 <= i < |tail| && Mentions(tail[i], word)
               && tail[i].score == MatchingLabels(tail, word)[k - |head|];
      assert corpus[i + 1] == tail[i];
    }
  }

  /** No label matches exactly when no review contains the word. */
  lemma {:induction false} MatchingLabelsEmpty(corpus: Corpus, word: string)
    ensures MatchingLabels(corpus, word) == [] <==>
              forall i :: 0 <= i < |corpus| ==> !Mentions(corpus[i], word)
  {
    if |corpus| > 0 {
      MatchingLabelsEmpty(corpus[1..], word);
      assert forall i :: 1 <= i < |corpus| ==> corpus[i] == corpus[1..][i - 1];
    }
  }

  // ---------------------------------------------------------------------
  // The score

  /** A word that no review contains scores exactly the fallback 2.0. */
  lemma UnseenWordScoresFallback(word: string, corpus: Corpus)
    requires forall i :: 0 <= i < |corpus| ==> !Mentions(corpus[i], word)
    ensures AverageReview(word, corpus) == 2.0
  {
    MatchingLabelsEmpty(corpus, word);
  }

  /** When at least one review contains the word, its score is the sum of the
      labels of the reviews containing it divided by how many there are. */
  lemma SeenWordScoresMean(word: string, corpus: Corpus)
    requires exists i :: 0 <= i < |corpus| && Mentions(corpus[i], word)
    ensures |MatchingLabels(corpus, word)| > 0
    ensures AverageReview(word, corpus)
            == Sum(MatchingLabels(corpus, word)) as real / |MatchingLabels(corpus, word)| as real
  {
    var i :| 0 <= i < |corpus| && Mentions(corpus[i], word);
    MatchingLabelsComplete(corpus, word, i);

  }

  function MinOf(xs: seq<int>): (m: int)
    requires |xs| > 0
    ensures m in xs && forall k :: 0 <= k < |xs| ==> m <= xs[k]
  {
    if |xs| == 1 then xs[0] else var t := MinOf(xs[1..]); if xs[0] <= t then xs[0] else t
  }

  function MaxOf(xs: seq<int>): (m: int)
    requires |xs| > 0
    ensures m in xs && forall k :: 0 <= k < |xs| ==> xs[k] <= m
  {
    if |xs| == 1 then xs[0] else var t := MaxOf(xs[1..]); if xs[0] >= t then xs[0] else t
  }

  lemma {:induction false} SumBounds(xs: seq<int>, lo: int, hi: int)
    requires forall k :: 0 <= k < |xs| ==> lo <= xs[k] <= hi
    ensures |xs| * lo <= Sum(xs) <= |xs| * hi
  {
    if |xs| > 0 {
      SumBounds(xs[1..], lo, hi);
    }
  }

  /** A mean lies between the smallest and the largest of its terms. */
  lemma MeanBounds(total: int, n: int, lo: int, hi: int)
    requires n > 0 && n * lo <= total <= n * hi
    ensures lo as real <= total as real / n as real <= hi as real
  {
    var nr := n as real;
    assert total as real / nr - lo as real == (total - n * lo) as real / nr;
    assert hi as real - total as real / nr == (n * hi - total) as real / nr;
  }

  /** The score of a word some review contains lies between the lowest and
      the highest label of the reviews that contain it. */
  lemma SeenWordScoreBetweenLabels(word: string, corpus: Corpus)
    requires exists i :: 0 <= i < |corpus| && Mentions(corpus[i], word)
    ensures exists i, j :: 0 <= i < |corpus| && 0 <= j < |corpus|
              && Mentions(corpus[i], word) && Mentions(corpus[j], word)
              && corpus[i].score as real <= AverageReview(word, corpus) <= corpus[j].score as real
  {
    var m :| 0 <= m < |corpus| && Mentions(corpus[m], word);
    MatchingLabelsComplete(corpus, word, m);
    var ls := MatchingLabels(corpus, word);
    var lo, hi := MinOf(ls), MaxOf(ls);
    SumBounds(ls, lo, hi);
    MeanBounds(Sum(ls), |ls|, lo, hi);
    var a :| 0 <= a < |ls| && ls[a] == lo;
    var b :| 0 <= b < |ls| && ls[b] == hi;
    MatchingLabelsSound(corpus, word, a);
    MatchingLabelsSound(corpus, word, b);
  }

  /** When every label lies in `lo..hi` and so does the fallback, every word
      score lies in `lo..hi`: the score is a convex combination of labels. */
  lemma ScoreWithinLabelRange(word: string, corpus: Corpus, lo: int, hi: int)
    requires forall i :: 0 <= i < |corpus| ==> lo <= corpus[i].score <= hi
    requires lo as real <= Fallback <= hi as real
    ensures lo as real <= AverageReview(word, corpus) <= hi as real
  {
    if exists i :: 0 <= i < |corpus| && Mentions(corpus[i], word) {
      SeenWordScoreBetweenLabels(word, corpus);
    } else {
      UnseenWordScoresFallback(word, corpus);
    }
  }

  /** Matching ignores letter case: words with the same lower case score
      the same, and a word scores as its lower-cased form. */
  lemma {:induction false} ScoreIgnoresCase(w1: string, w2: string, corpus: Corpus)
    requires Lower(w1) == Lower(w2)
    ensures AverageReview(w1, corpus) == AverageReview(w2, corpus)
    ensures AverageReview(w1, corpus) == AverageReview(Lower(w1), corpus)
  {
    SameMatches(w1, w2, corpus);
    LowerIdempotent(w1);
    SameMatches(w1, Lower(w1), corpus);
  }

  lemma {:induction false} SameMatches(w1: string, w2: string, corpus: Corpus)
    requires Lower(w1) == Lower(w2)
    ensures MatchingLabels(corpus, w1) == MatchingLabels(corpus, w2)
  {
    if |corpus| > 0 {
      SameMatches(w1, w2, corpus[1..]);
    }
  }

  /** The order of the corpus lines does not change any score: two corpora
      holding the same lines, each as often, score every word alike. */
  lemma CorpusOrderIrrelevant(word: string, c1: Corpus, c2: Corpus)
    requires multiset(c1) == multiset(c2)
    ensures AverageReview(word, c1) == AverageReview(word, c2)
  {
    ReorderKeepsTotals(word, c1, c2);
  }

  /** Reordering the lines keeps the number and the total of the matching
      labels. */
  lemma {:induction false} ReorderKeepsTotals(word: string, c1: Corpus, c2: Corpus)
    requires multiset(c1) == multiset(c2)
    ensures |MatchingLabels(c1, word)| == |MatchingLabels(c2, word)|
    ensures Sum(MatchingLabels(c1, word)) == Sum(MatchingLabels(c2, word))
    decreases |c1|
  {
    if |c1| == 0 {
      assert |multiset(c2)| == 0;
      assert c2 == [];
    } else {
      var r := c1[0];
      assert r in multiset(c2);
      var j :| 0 <= j < |c2| && c2[j] == r;
      var rest2 := c2[..j] + c2[j + 1..];
      assert c1 == [r] + c1[1..];
      assert c2 == c2[..j] + [r] + c2[j + 1..];
      assert multiset(c1) == multiset([r]) + multiset(c1[1..]);
      assert multiset(c2) == multiset(c2[..j]) + multiset([r]) + multiset(c2[j + 1..]);
      assert multiset(rest2) == multiset(c2[..j]) + multiset(c2[j + 1..]);
      assert multiset(c1[1..]) == multiset(c1) - multiset{r};
      assert multiset(rest2) == multiset(c2) - multiset{r};
      ReorderKeepsTotals(word, c1[1..], rest2);
      var head := if Mentions(r, word) then [r.score] else [];
      assert MatchingLabels(c1, word) == head + MatchingLabels(c1[1..], word);
      MatchingLabelsComplete(c2, word, j);
      MatchingLabelsAppend(c2[..j], c2[j + 1..], word);
      var before, after := MatchingLabels(c2[..j], word), MatchingLabels(c2[j + 1..], word);
      SumAppend(head, MatchingLabels(c1[1..], word));
      SumAppend(before + head, after);
      SumAppend(before, head);
      SumAppend(before, after);
    }
  }

  // ---------------------------------------------------------------------
  // The raw corpus line

  function DigitChar(d: int): char
    requires 0 <= d < 10
  {
    ('0' as int + d) as char
  }

  /** The decimal digits of a natural number. */
  function Digits(n: nat): string
  {
    if n < 10 then [DigitChar(n)] else Digits(n / 10) + [DigitChar(n % 10)]
  }

  /** The label field as it is written at the start of a corpus line. */
  function LabelField(n: int): string
  {
    if n < 0 then "-" + Digits(-n) else Digits(n)
  }

  /** The corpus line a review stands for: its label, one space, its text. */
  function RawLine(r: Review): string
  {
    LabelField(r.score) + " " + r.text
  }

  lemma {:induction false} DigitsPlain(n: nat)
    ensures forall i :: 0 <= i < |Digits(n)| ==> '0' <= Digits(n)[i] <= '9'
  {
    if n >= 10 {
      DigitsPlain(n / 10);
    }
  }

  /** Lower-casing and splitting the raw line on single spaces yields the
      label field first and then exactly the fields of the review text: the
      label field is never among the fields compared with the word. */
  lemma RawLineFields(r: Review, word: string)
    ensures Split(Lower(RawLine(r)), ' ')[0] == LabelField(r.score)
    ensures Split(Lower(RawLine(r)), ' ')[1..] == Split(Lower(r.text), ' ')
    ensures Mentions(r, word) <==> Lower(word) in Split(Lower(RawLine(r)), ' ')[1..]
  {
    var f := LabelField(r.score);
    DigitsPlain(if r.score < 0 then -r.score else r.score);
    assert forall i :: 0 <= i < |f| ==> f[i] == '-' || '0' <= f[i] <= '9';
    LowerFixed(f);
    LowerAppend(f + " ", r.text);
    LowerAppend(f, " ");
    assert Lower(" ") == " ";
    SplitAfterField(f, Lower(r.text), ' ');
  }

  /** A line that still ends with its newline has a last field ending in
      "\n", so no word without a newline ever matches that last field. */
  lemma NewlineHidesLastField(r: Review, word: string)
    requires |r.text| > 0 && r.text[|r.text| - 1] == '\n'
    requires '\n' !in word
    ensures var fields := Split(Lower(r.text), ' ');
            Lower(word) != fields[|fields| - 1]
  {
    var t := r.text[..|r.text| - 1];
    assert r.text == t + "\n";
    LowerAppend(t, "\n");
    assert Lower("\n") == "\n";
    LowerLength(r.text);
    var lowered := Lower(r.text);
    assert lowered[|lowered| - 1] == '\n';
    SplitLastField(lowered, ' ');
    LowerKeeps(word, '\n');
  }
}

=== FILE: wrappers.dfy ===
/** Tagged results used across the model in place of Python's implicit
    `None` and of exceptions raised mid-computation. */
module Wrappers {

  /** A value that may be absent: Python's `None` made explicit. */
  datatype Option<+T> = None | Some(value: T)

  /** A computation that either yields a value or fails with an error,
      standing for a Python exception that escapes the function. */
  datatype Result<+T, +E> = Success(value: T) | Failure(error: E)
}
